=== FILE: README.md ===
# Legislation pipeline state and agency list, in Dafny

This project models the sequential core of a pipeline that tracks Maryland
legislative bills for one session year through the stages download, convert,
amend and QA. It also models the table maintenance of the agency-description
script. The model covers three things:

- **The incremental state store** (`PipelineState`, `StateProperties`). The
  store maps bill numbers to JSON-like records. A record is created lazily
  with fixed defaults. Records in an older schema get `first_seen` and
  `last_updated` filled in. Partial updates are merged one dict level deep.
  "Needs" flags cascade forward along `download < convert < amend < qa`.
  Bills that left the master list are purged. The store is a value
  `Store(data, disk)`: `data` is the in-memory map, and `disk` is the
  snapshot the JSON state file holds (`None` until a file exists). Each call
  to `save()` sets `disk := Some(data)`, so "the store was saved" is the
  statement `disk == Some(data)`.
- **The per-bill stage gate of the main loop** (`Orchestrator`). The
  download, convert, amend, QA and export stages are collaborators. Each one
  is an arbitrary function on the store. A run records which collaborators
  it invoked, in order, as a trace of events. From this we prove the gate
  order, the re-read discipline and the single download and export.
- **The agency list** (`Agencies`, `Text`). This covers the scraper's link
  filter, the merge of scraped and sideloaded candidates (noise filter,
  de-duplication on stripped names, new-row defaults), the rule that picks
  rows to describe, and the write-back of each description.

`Json` holds the value type and the Python built-ins the code uses on it:
truthiness, `dict.get`, `a or b` and `dict.update`. `Wrappers` holds `Option`.

Some behaviour of the code worth stating plainly:

- `update_bill` stamps only `last_updated_local`. `last_updated` is set when
  the record is created or backfilled, or when the caller's updates carry it.
- `get_bill` does not save. A newly created record reaches the state file
  only with the next `update_bill`, `mark_dirty` or a `clean_state` that
  removed something. `GetBill` keeps `disk` as it was.
- The loop has no content-hash check and no try/except around the stages.
  The amend and QA gates look only at the needs flags.
- The rerun rule needs *both* acronym and alias to be blank, although the
  comment beside it speaks of "Acronym or Alias".
- If the downloaded bill list names a bill twice, the loop visits it twice
  and its stages can run twice. `LoopEventsDistinct` shows that no event
  repeats when the list has no duplicates.

## Model

| member | source | states |
|---|---|---|
| PipelineState.Open | pipeline/state.py:14-18 | With no state file the store starts as the empty map. With a file, memory equals the loaded file. |
| PipelineState.GetBill | pipeline/state.py:25-50 | Never removes a bill: the key set becomes old keys plus `id`, and other bills are unchanged. A present record keeps every field it had and gains at most `first_seen`/`last_updated`. Nothing is saved. |
| StateProperties.FreshBillDefaults | pipeline/state.py:26-41 | A new bill gets exactly the 12 default fields: `needs_download` true and the other flags false, empty `files`, `amended_status` "original", null hashes, null `qa_results` and `last_seen`, and `first_seen == last_updated == now`. |
| StateProperties.BackfillFallbacks | pipeline/state.py:43-48 | A missing `first_seen` comes from a truthy `last_seen`, else `now`. A missing `last_updated` comes from a truthy `last_updated_local`, else `first_seen`. `last_seen` is not altered. |
| PipelineState.Backfill | pipeline/state.py:43-48 | Backfilling only adds `first_seen`/`last_updated`. Every existing field keeps its value. |
| StateProperties.GetBillPresent | pipeline/state.py:42-50 | Reading a bill that is present and already backfilled changes nothing. |
| StateProperties.GetBillIdempotent | pipeline/state.py:25-50 | Re-reading a bill right after reading it, even at a later time, yields the same store and record. |
| PipelineState.Merge | pipeline/state.py:55-59 | The merged keys are old keys plus update keys. Keys outside the update are unchanged. A non-dict update replaces the value. A dict-into-dict update keeps the union of inner keys. |
| PipelineState.MergeOneLevel | pipeline/state.py:56-57 | In a dict-into-dict merge, new inner values win and old inner keys that the update lacks keep their values. |
| PipelineState.UpdateBill | pipeline/state.py:52-61 | Creates the record if absent, then merges. `last_updated_local := now`. Untouched keys keep their values. Other bills are unchanged. Afterwards the file snapshot equals memory. |
| PipelineState.DirtyFrom | pipeline/state.py:65-70 | The update holds `needs_t = True` exactly for the stages `t` at or after the start index, and every value it holds is `True`. |
| PipelineState.UpdateBillKey | pipeline/state.py:52-61 | Under any key other than `last_updated_local`, a key the update carries holds the merged value afterwards, and a key it lacks reads as `get_bill` returns it (a missing record is first filled with defaults and backfilled). |
| StateProperties.UpdateBillNoop | pipeline/state.py:52-61 | An update that repeats values a saved, backfilled record already holds, stamped with the record's own `last_updated_local`, leaves the store exactly as it was; a dict value equal to the one held merges to that dict again. |
| StateProperties.DirtyFromKeys | pipeline/state.py:67-70 | Every key of the dirty update is one of the four needs flags, and it holds nothing else. |
| PipelineState.MarkDirty | pipeline/state.py:63-71 | Sets `needs_t` true for every stage at or after `stage` and stamps `last_updated_local`. Flags of earlier stages and every other field of the record keep their values, and the record gains no other key. Other bills are unchanged. The store is saved. |
| StateProperties.MarkDirtyIdempotent | pipeline/state.py:63-71 | Marking the same stage dirty twice at the same time gives the same store as marking it once. |
| PipelineState.CleanState | pipeline/state.py:73-80 | Keeps exactly the bills in both the old store and the list, with their records unchanged. The removed count is `|old| - |new|`, which is at least 0. The store is saved iff the count is positive; otherwise it is unchanged. |
| PipelineState.Kept | pipeline/state.py:76 | The filtered map holds exactly the old keys that appear in the current list, with their values unchanged. |
| StateProperties.CleanStateIdempotent | pipeline/state.py:73-80 | A second clean against the same list removes nothing and changes nothing. |
| Orchestrator.Entry | run_pipeline.py:51 | The loop starts each bill from `get_bill` on the current store: the held store and record are exactly what `get_bill` returns, and the record is live in the store. |
| Orchestrator.Gate | run_pipeline.py:54-59 | A gate runs its stage iff the held record's flag is truthy. The store is then the stage's output (re-read with `get_bill` when the gate re-reads), exactly that one event is appended, and after a re-read the held record is the live one. Otherwise nothing changes. |
| Orchestrator.GatesReadLiveRecords | run_pipeline.py:51-74 | Convert runs iff the record read at loop entry needs it. Amend runs iff the record in the store after the convert stage needs it. QA runs iff the record in the store after the amend stage needs it. |
| Orchestrator.ProcessBillOrdered | run_pipeline.py:50-74 | Per bill, the visit comes first, then convert, amend and QA in that order. Each event is about that bill, and no stage is invoked twice in one visit. |
| Orchestrator.ProcessBillOnlyBillEvents | run_pipeline.py:50-74 | A visit invokes neither download nor export. |
| Orchestrator.VisitsOfProcessBill | run_pipeline.py:50-51 | A visit records exactly one visit event, for its own bill. |
| Orchestrator.VisitorVisitsOnce | run_pipeline.py:50-74 | The per-bill step meets the loop's requirement: one visit for its bill, and no download or export. |
| Orchestrator.RunBillsVisits | run_pipeline.py:50-74 | For any per-bill step that records one visit for its own bill and never downloads or exports, the loop's visits are the bill list in order, and it records no download or export. |
| Orchestrator.RunBillsDistinct | run_pipeline.py:50-74 | For any per-bill step whose events concern its own bill and never repeat, the loop over a duplicate-free list records only per-bill events of listed bills, and none twice. |
| Orchestrator.LoopEventsDistinct | run_pipeline.py:50-74 | Over a duplicate-free bill list, each bill is visited once and each of its stages is invoked at most once in the whole run. |
| Orchestrator.RunBillsVisitsInOrder | run_pipeline.py:50 | The loop visits the bills exactly in `all_bills` order. |
| Orchestrator.EveryBillRecorded | run_pipeline.py:50-51 | When the stages never drop a bill, every bill in `all_bills` (and every bill already stored) has a record after the loop. |
| Orchestrator.RunLoop | run_pipeline.py:50-74 | The loop threads the store through each bill's step. Its trace is the concatenation of the per-bill events. Its visits are the bill list. It adds no download or export events. |
| Orchestrator.RunStages | run_pipeline.py:44-77 | For any such per-bill step: download comes first and only once, export comes last and only once, and the visits are the downloaded bill list. |
| Orchestrator.RunPipeline | run_pipeline.py:44-77 | Download runs exactly once and first. Export runs exactly once, last, on the store the loop left. The visits are `all_bills` in order. |
| Text.StripSpec | describe_agencies.py:146 | `strip` cuts whitespace, and only whitespace, from both ends. The result neither starts nor ends with whitespace, and it is empty iff the input is all whitespace. |
| Agencies.FilterLinks | describe_agencies.py:40-47 | A link is kept iff its url starts with "http" and its name is longer than 3 characters. Every copy of a kept link is kept, and kept links stay in page order. |
| Agencies.NewRowsSpec | describe_agencies.py:144-161 | No appended row is noise. No appended row's stripped name is already taken. No two appended rows share a stripped name. Each appended row has empty Summary/Acronym/Alias and comes from a candidate, in candidate order. Each row is made from the first candidate with its stripped name, and rows are ordered by where their names first occur among the candidates, so a repeated candidate never reorders them. Every non-noise candidate's stripped name ends up taken. |
| Agencies.MergeAgencies | describe_agencies.py:137-165 | Existing rows are unchanged and first, in order. They are followed by the new rows for the scraped candidates and then the sideloaded ones. No new row's stripped name collides with an existing one. |
| Agencies.NothingNewWhenAllSeen | describe_agencies.py:145-161 | Candidates whose stripped names are all taken, or that are noise, add no rows. |
| Agencies.MergeIdempotent | describe_agencies.py:137-165 | Merging the same candidates into the merged table adds nothing. |
| Agencies.SelectionRule | describe_agencies.py:170-188 | A row is selected iff its Summary is blank, or a rerun was asked for and both Acronym and Alias are blank. |
| Agencies.RerunOnlyWidens | describe_agencies.py:175-186 | A rerun only adds rows. Without a rerun, a row with a non-blank Summary is never selected. |
| Agencies.SelectRows | describe_agencies.py:167-188 | The selected indices are in range and strictly increasing. They are exactly the rows the rule chooses. |
| Agencies.ApplyMetadata | describe_agencies.py:207-209 | Writes only Summary, Acronym and Alias, from the `summary`, `acronym` and `aliases` keys. Each defaults to "" when its key is missing. Name and url are kept. |
| Agencies.ProcessRows | describe_agencies.py:196-213 | Each selected row gets the metadata for its own name. Every other row is unchanged. |
| Agencies.DescribeAgencies | describe_agencies.py:137-213 | Pre-existing rows keep their name and url. They are described iff the rule selects them, and otherwise unchanged. A selected row becomes its merged row with the metadata returned for its name. Every newly added row is selected and so becomes its new row with that metadata. The selected indices are rows of the table, in strictly increasing order. |

## Left out

- Reading and writing the JSON state file (`json.load`, `json.dump`, `os.makedirs`, the session path). `Open` takes the already-parsed file, or `None`. A malformed file is not modelled.
- `datetime.now()`: each operation takes `now` as a parameter. The orchestrator uses one `now` for the whole run.
- Python object identity. `bill[k] = v` shares the caller's dict in the source; the model uses value semantics. Dict key order, which affects only the file layout, is also not modelled.
- JSON floating-point numbers: `Json.Value` carries integers only.
- The stage implementations (`download_session_data`, `convert_pdfs_to_md`, `apply_amendments`, `run_qa`, `export_qa_to_csv`) are not part of this model. They are arbitrary store transformers in `Collaborators`.
- `setup_client`, argparse, environment variables, printing and tqdm.
- Orchestrator.RunPipeline: the collaborators are total functions. In the source a stage that raises aborts `main`, so later bills are never visited and `export_qa_to_csv` never runs. "Export exactly once" holds only for runs in which nothing raises; exceptions are not modelled.
- Orchestrator.EveryBillRecorded: stated only for collaborators that never drop a bill from the store. The stage implementations are not part of this model, and one that removed a record would break the property.
- The `if needs_convert: pass` re-check between the convert and amend gates does nothing. It appears as no step at all, so it changes neither the store nor the trace.
- `mark_dirty` with a stage name outside the four raises `ValueError` in the source. The `Stage` enumeration makes that input unrepresentable.
- HTTP scraping and HTML parsing in `scrape_agencies`, including its fallback to `[]` on any error. `FilterLinks` takes the (name, url) pairs of the container's links, with names already whitespace-stripped by `get_text(strip=True)`.
- `get_agency_summary` and its JSON-parse and error fallbacks. The language-model call is the `describe` parameter.
- Nondeterminism of the collaborators. The stages are functions of (store, bill), and `describe` is a function of the agency name. In the source a stage's effect also depends on the file system and network, and two language-model calls for the same name may answer differently. The orchestrator's properties (order of stage invocations, distinctness of visits, the records kept) do not depend on this determinism. `DescribeAgencies` does: its equation `table[i] == ApplyMetadata(m, describe(m.name))` implies that two selected rows with the same name receive the same metadata, which the source, making one model call per row, does not guarantee.
- The CSV side: `read_csv`, adding missing Acronym/Alias columns, `fillna`, the per-row `to_csv` save and the JSON mirror written at the end.
- Unicode semantics of `str.strip()` and `str.lower()`. The model strips ASCII whitespace (space, `\t` to `\r`, `\x1c` to `\x1f`) and lowercases ASCII letters only.

=== FILE: agencies.dfy ===
/**
  The agency list: filtering scraped links, merging new candidates into the
  existing table, choosing the rows to describe, and writing each
  description back into its row. The scraper, the language-model call and
  the CSV/JSON files are outside the model: scraped links and the model's
  answers come in as parameters.
 */
module Agencies {
  import opened Text

  /** A candidate agency: a scraped link or a sideloaded entry. */
  datatype Agency = Agency(name: string, url: string)

  /** A row of the agency table, one field per column. */
  datatype Row = Row(name: string, url: string, summary: string, acronym: string, alias: string)

  /** Agencies added by hand after every scrape. */
  const Sideloaded: seq<Agency> :=
    [Agency("Maryland State Innovation Team", "https://innovation.maryland.gov/Pages/default.aspx")]

  /** `a` occurs in `b` with its elements in the same order (not necessarily adjacent). */
  predicate Subseq<T(==)>(a: seq<T>, b: seq<T>)
    decreases |b|
  {
    if |a| == 0 then true
    else if |b| == 0 then false
    else (a[0] == b[0] && Subseq(a[1..], b[1..])) || Subseq(a, b[1..])
  }

  /** The scraper's noise filter: an absolute link with a name longer than three characters. */
  predicate KeepLink(a: Agency)
  {
    StartsWith(a.url, "http") && |a.name| > 3
  }

  /** The links the scraper keeps, in page order. */
  function FilterLinks(links: seq<Agency>): (r: seq<Agency>)
    ensures forall a :: a in r <==> a in links && KeepLink(a)
    ensures forall a :: multiset(r)[a] == if KeepLink(a) then multiset(links)[a] else 0
    ensures Subseq(r, links)
    decreases |links|
  {
    if |links| == 0 then []
    else
      var rest := FilterLinks(links[1..]);
      assert forall a :: a in links <==> a == links[0] || a in links[1..];
      assert links == [links[0]] + links[1..];
      assert multiset(links) == multiset{links[0]} + multiset(links[1..]);
      if KeepLink(links[0]) then
        assert ([links[0]] + rest)[1..] == rest;
        assert multiset([links[0]] + rest) == multiset{links[0]} + multiset(rest);
        [links[0]] + rest
      else rest
  }

  /** The merge's noise filter: county and Baltimore City entries are not state agencies. */
  predicate IsNoise(name: string)
  {
    var lowered := Lower(Strip(name));
    Contains(lowered, "county") || Contains(lowered, "baltimore city")
  }

  /** The stripped agency names of a table. */
  function Names(rows: seq<Row>): set<string>
  {
    set r | r in rows :: Strip(r.name)
  }

  /** The row appended for a new candidate: its name and url, everything else empty. */
  function NewRow(a: Agency): Row
  {
    Row(a.name, a.url, "", "", "")
  }

  /** The row every candidate would get, in candidate order. */
  function AllNewRows(candidates: seq<Agency>): (r: seq<Row>)
    ensures |r| == |candidates|
    ensures forall k :: 0 <= k < |r| ==> r[k] == NewRow(candidates[k])
  {
    seq(|candidates|, k requires 0 <= k < |candidates| => NewRow(candidates[k]))
  }

  /**
    The rows the merge loop appends: one per candidate that is not noise and
    whose stripped name is neither in `seen` nor taken by an earlier
    candidate.
   */
  function NewRows(candidates: seq<Agency>, seen: set<string>): seq<Row>
    decreases |candidates|
  {
    if |candidates| == 0 then []
    else
      var a := candidates[0];
      var name := Strip(a.name);
      if IsNoise(a.name) || name in seen then NewRows(candidates[1..], seen)
      else [NewRow(a)] + NewRows(candidates[1..], seen + {name})
  }

  /** Appended rows are not noise, have fresh and distinct names, and carry empty metadata. */
  lemma {:induction false} NewRowsFresh(candidates: seq<Agency>, seen: set<string>)
    ensures forall k :: 0 <= k < |NewRows(candidates, seen)| ==> Strip(NewRows(candidates, seen)[k].name) !in seen
    ensures forall k, l :: 0 <= k < l < |NewRows(candidates, seen)| ==>
              Strip(NewRows(candidates, seen)[k].name) != Strip(NewRows(candidates, seen)[l].name)
    ensures forall k :: 0 <= k < |NewRows(candidates, seen)| ==> !IsNoise(NewRows(candidates, seen)[k].name)
    ensures forall k :: 0 <= k < |NewRows(candidates, seen)| ==>
              var row := NewRows(candidates, seen)[k];
              row.summary == "" && row.acronym == "" && row.alias == ""
    decreases |candidates|
  {
    if |candidates| > 0 {
      var a := candidates[0];
      var name := Strip(a.name);
      if IsNoise(a.name) || name in seen {
        NewRowsFresh(candidates[1..], seen);
        assert NewRows(candidates, seen) == NewRows(candidates[1..], seen);
      } else {
        var rest := NewRows(candidates[1..], seen + {name});
        NewRowsFresh(candidates[1..], seen + {name});
        var r := [NewRow(a)] + rest;
        assert NewRows(candidates, seen) == r;
        assert r[0] == NewRow(a) && Strip(r[0].name) == name;
        assert forall k :: 0 < k < |r| ==> r[k] == rest[k - 1] && Strip(r[k].name) != name;
      }
    }
  }

  /** Appended rows come from the candidates, in candidate order. */
  lemma {:induction false} NewRowsOrdered(candidates: seq<Agency>, seen: set<string>)
    ensures Subseq(NewRows(candidates, seen), AllNewRows(candidates))
    decreases |candidates|
  {
    if |candidates| > 0 {
      var a := candidates[0];
      var name := Strip(a.name);
      assert AllNewRows(candidates)[1..] == AllNewRows(candidates[1..]);
      if IsNoise(a.name) || name in seen {
        NewRowsOrdered(candidates[1..], seen);
      } else {
        var rest := NewRows(candidates[1..], seen + {name});
        NewRowsOrdered(candidates[1..], seen + {name});
        assert ([NewRow(a)] + rest)[1..] == rest;
      }
    }
  }

  /** Every non-noise candidate's stripped name ends up taken. */
  lemma {:induction false} NewRowsCover(candidates: seq<Agency>, seen: set<string>)
    ensures forall a :: a in candidates && !IsNoise(a.name) ==> Strip(a.name) in seen + Names(NewRows(candidates, seen))
    decreases |candidates|
  {
    if |candidates| > 0 {
      var a := candidates[0];
      var name := Strip(a.name);
      assert forall b :: b in candidates <==> b == a || b in candidates[1..];
      if IsNoise(a.name) || name in seen {
        NewRowsCover(candidates[1..], seen);
      } else {
        var rest := NewRows(candidates[1..], seen + {name});
        NewRowsCover(candidates[1..], seen + {name});
        var r := [NewRow(a)] + rest;
        assert Names(r) == {name} + Names(rest) by {
          assert forall x :: x in r <==> x == NewRow(a) || x in rest;
        }
      }
    }
  }

  /** The index of the first candidate whose stripped name is `name` (`|candidates|` if none). */
  function FirstIndex(candidates: seq<Agency>, name: string): nat
    decreases |candidates|
  {
    if |candidates| == 0 then 0
    else if Strip(candidates[0].name) == name then 0
    else 1 + FirstIndex(candidates[1..], name)
  }

  /** Candidate `j` is the first one with its stripped name. */
  predicate FirstWithName(candidates: seq<Agency>, j: int)
    requires 0 <= j < |candidates|
  {
    forall i :: 0 <= i < j ==> Strip(candidates[i].name) != Strip(candidates[j].name)
  }

  /** Whether a candidate is noise depends only on its stripped name. */
  lemma NoiseOfStripped(x: string, y: string)
    requires Strip(x) == Strip(y)
    ensures IsNoise(x) == IsNoise(y)
  {
  }

  /** An appended row is made from the first candidate with its stripped name. */
  lemma {:induction false} NewRowFirstOrigin(candidates: seq<Agency>, seen: set<string>, row: Row)
    requires row in NewRows(candidates, seen)
    ensures exists j :: 0 <= j < |candidates| && row == NewRow(candidates[j]) && FirstWithName(candidates, j)
    decreases |candidates|
  {
    var a := candidates[0];
    var tail := candidates[1..];
    var skip := IsNoise(a.name) || Strip(a.name) in seen;
    var seen' := if skip then seen else seen + {Strip(a.name)};
    var rest := NewRows(tail, seen');
    assert NewRows(candidates, seen) == if skip then rest else [NewRow(a)] + rest;
    if !skip && row == NewRow(a) {
      assert row == NewRow(candidates[0]) && FirstWithName(candidates, 0);
    } else {
      assert row in rest;
      NewRowFirstOrigin(tail, seen', row);
      var j :| 0 <= j < |tail| && row == NewRow(tail[j]) && FirstWithName(tail, j);
      RestAvoidsFirst(candidates, seen, seen');
      var k :| 0 <= k < |rest| && rest[k] == row;
      assert Strip(row.name) != Strip(a.name);
      FirstWithNameTail(candidates, j);
    }
  }

  /** Being first among the later candidates, and unlike the first, is being first overall. */
  lemma FirstWithNameTail(candidates: seq<Agency>, j: int)
    requires 0 <= j < |candidates| - 1 && FirstWithName(candidates[1..], j)
    requires Strip(candidates[j + 1].name) != Strip(candidates[0].name)
    ensures FirstWithName(candidates, j + 1)
  {
    forall i | 0 <= i < j + 1
      ensures Strip(candidates[i].name) != Strip(candidates[j + 1].name)
    {
      if i > 0 {
        assert candidates[i] == candidates[1..][i - 1];
      }
    }
  }

  /** Among candidates sharing a stripped name, the first one supplies the row. */
  lemma NewRowsFirst(candidates: seq<Agency>, seen: set<string>)
    ensures forall row :: row in NewRows(candidates, seen) ==>
              exists j :: 0 <= j < |candidates| && row == NewRow(candidates[j]) && FirstWithName(candidates, j)
  {
    forall row | row in NewRows(candidates, seen) {
      NewRowFirstOrigin(candidates, seen, row);
    }
  }

  /** No row appended after the first candidate bears the first candidate's stripped name. */
  lemma RestAvoidsFirst(candidates: seq<Agency>, seen: set<string>, seen': set<string>)
    requires |candidates| > 0
    requires seen' == if IsNoise(candidates[0].name) || Strip(candidates[0].name) in seen then seen
                      else seen + {Strip(candidates[0].name)}
    ensures forall k :: 0 <= k < |NewRows(candidates[1..], seen')| ==>
              Strip(NewRows(candidates[1..], seen')[k].name) != Strip(candidates[0].name)
  {
    var a := candidates[0];
    var name := Strip(a.name);
    var rest := NewRows(candidates[1..], seen');
    NewRowsFresh(candidates[1..], seen');
    forall k | 0 <= k < |rest|
      ensures Strip(rest[k].name) != name
    {
      if IsNoise(a.name) && Strip(rest[k].name) == name {
        NoiseOfStripped(rest[k].name, a.name);
      }
    }
  }

  /**
    Appended rows follow the order in which their names first occur among
    the candidates, so a repeated candidate never reorders them.
   */
  lemma {:induction false} NewRowsInOrder(candidates: seq<Agency>, seen: set<string>)
    ensures forall k, l :: 0 <= k < l < |NewRows(candidates, seen)| ==>
              FirstIndex(candidates, Strip(NewRows(candidates, seen)[k].name))
                < FirstIndex(candidates, Strip(NewRows(candidates, seen)[l].name))
    decreases |candidates|
  {
    if |candidates| > 0 {
      var a := candidates[0];
      var name := Strip(a.name);
      var tail := candidates[1..];
      var skip := IsNoise(a.name) || name in seen;
      var seen' := if skip then seen else seen + {name};
      var rest := NewRows(tail, seen');
      var r := NewRows(candidates, seen);
      assert r == if skip then rest else [NewRow(a)] + rest;
      NewRowsInOrder(tail, seen');
      RestAvoidsFirst(candidates, seen, seen');
      forall k | 0 <= k < |rest|
        ensures FirstIndex(candidates, Strip(rest[k].name)) == 1 + FirstIndex(tail, Strip(rest[k].name))
      {
      }
      if !skip {
        assert FirstIndex(candidates, Strip(r[0].name)) == 0;
        assert forall k :: 0 < k < |r| ==> r[k] == rest[k - 1];
      }
    } else {
      assert NewRows(candidates, seen) == [];
    }
  }

  /**
    What the appended rows are: not noise, fresh names, no duplicates, empty
    metadata, drawn from the candidates in order, covering every non-noise
    candidate's name, each made from the first candidate with its name, and
    ordered by where those names first occur.
   */
  lemma NewRowsSpec(candidates: seq<Agency>, seen: set<string>)
    ensures forall k :: 0 <= k < |NewRows(candidates, seen)| ==> Strip(NewRows(candidates, seen)[k].name) !in seen
    ensures forall k, l :: 0 <= k < l < |NewRows(candidates, seen)| ==>
              Strip(NewRows(candidates, seen)[k].name) != Strip(NewRows(candidates, seen)[l].name)
    ensures forall k :: 0 <= k < |NewRows(candidates, seen)| ==> !IsNoise(NewRows(candidates, seen)[k].name)
    ensures forall k :: 0 <= k < |NewRows(candidates, seen)| ==>
              var row := NewRows(candidates, seen)[k];
              row.summary == "" && row.acronym == "" && row.alias == ""
    ensures Subseq(NewRows(candidates, seen), AllNewRows(candidates))
    ensures forall a :: a in candidates && !IsNoise(a.name) ==> Strip(a.name) in seen + Names(NewRows(candidates, seen))
    ensures forall row :: row in NewRows(candidates, seen) ==>
              exists j :: 0 <= j < |candidates| && row == NewRow(candidates[j]) && FirstWithName(candidates, j)
    ensures forall k, l :: 0 <= k < l < |NewRows(candidates, seen)| ==>
              FirstIndex(candidates, Strip(NewRows(candidates, seen)[k].name))
                < FirstIndex(candidates, Strip(NewRows(candidates, seen)[l].name))
  {
    NewRowsInOrder(candidates, seen);
    NewRowsFirst(candidates, seen);
    NewRowsFresh(candidates, seen);
    NewRowsOrdered(candidates, seen);
    NewRowsCover(candidates, seen);
  }

  /** One step of the merge loop: the first candidate is skipped or appended. */
  lemma NewRowsStep(candidates: seq<Agency>, seen: set<string>)
    requires |candidates| > 0
    ensures var a := candidates[0];
      NewRows(candidates, seen) ==
        if IsNoise(a.name) || Strip(a.name) in seen then NewRows(candidates[1..], seen)
        else [NewRow(a)] + NewRows(candidates[1..], seen + {Strip(a.name)})
  {
  }

  /**
    The merge of `main`: existing rows untouched and in order, then the new
    rows for the scraped candidates followed by the sideloaded ones.
   */
  method MergeAgencies(rows: seq<Row>, scraped: seq<Agency>) returns (merged: seq<Row>)
    ensures merged == rows + NewRows(scraped + Sideloaded, Names(rows))
    ensures |merged| >= |rows| && merged[..|rows|] == rows
    ensures forall k :: |rows| <= k < |merged| ==> Strip(merged[k].name) !in Names(rows)
  {
    var candidates := scraped + Sideloaded;
    var existing := Names(rows);
    var added: seq<Row> := [];
    var i := 0;
    while i < |candidates|
      invariant 0 <= i <= |candidates|
      invariant added + NewRows(candidates[i..], existing) == NewRows(candidates, Names(rows))
    {
      var agency := candidates[i];
      var name := Strip(agency.name);
      assert candidates[i..][1..] == candidates[i + 1..];
      NewRowsStep(candidates[i..], existing);
      if !IsNoise(agency.name) && name !in existing {
        assert added + ([NewRow(agency)] + NewRows(candidates[i + 1..], existing + {name}))
            == (added + [NewRow(agency)]) + NewRows(candidates[i + 1..], existing + {name});
        added := added + [NewRow(agency)];
        existing := existing + {name};
      }
      i := i + 1;
    }
    assert candidates[i..] == [];
    merged := rows + added;
    NewRowsFresh(candidates, Names(rows));
  }

  /** Candidates whose stripped names are all taken (or that are noise) add nothing. */
  lemma {:induction false} NothingNewWhenAllSeen(candidates: seq<Agency>, seen: set<string>)
    requires forall a :: a in candidates && !IsNoise(a.name) ==> Strip(a.name) in seen
    ensures NewRows(candidates, seen) == []
    decreases |candidates|
  {
    if |candidates| > 0 {
      assert candidates[0] in candidates;
      NothingNewWhenAllSeen(candidates[1..], seen);
    }
  }

  lemma NamesAppend(a: seq<Row>, b: seq<Row>)
    ensures Names(a + b) == Names(a) + Names(b)
  {
    assert forall r :: r in a + b <==> r in a || r in b;
  }

  /** Merging the same candidates into an already merged table adds no rows. */
  lemma MergeIdempotent(rows: seq<Row>, scraped: seq<Agency>)
    ensures var merged := rows + NewRows(scraped + Sideloaded, Names(rows));
      NewRows(scraped + Sideloaded, Names(merged)) == []
  {
    var added := NewRows(scraped + Sideloaded, Names(rows));
    NamesAppend(rows, added);
    NewRowsCover(scraped + Sideloaded, Names(rows));
    NothingNewWhenAllSeen(scraped + Sideloaded, Names(rows + added));
  }

  /** The selection rule: no summary yet, or a rerun and neither acronym nor alias. */
  predicate ShouldProcess(row: Row, rerun: bool)
  {
    var summary := Strip(row.summary);
    var acronym := Strip(row.acronym);
    var alias := Strip(row.alias);
    if summary == "" then true
    else if rerun then acronym == "" && alias == ""
    else false
  }

  /**
    In terms of the raw cells: a row is chosen iff its summary is blank, or
    a rerun was asked for and both its acronym and alias are blank.
   */
  lemma SelectionRule(row: Row, rerun: bool)
    ensures ShouldProcess(row, rerun) <==>
      AllSpace(row.summary) || (rerun && AllSpace(row.acronym) && AllSpace(row.alias))
  {
    StripEmpty(row.summary);
    StripEmpty(row.acronym);
    StripEmpty(row.alias);
  }

  /** A rerun only adds rows; without one, a row with a summary is never chosen. */
  lemma RerunOnlyWidens(row: Row)
    ensures ShouldProcess(row, false) ==> ShouldProcess(row, true)
    ensures !AllSpace(row.summary) ==> !ShouldProcess(row, false)
  {
    StripEmpty(row.summary);
  }

  /** The indices of the rows to describe, in table order. */
  method SelectRows(rows: seq<Row>, rerun: bool) returns (indices: seq<nat>)
    ensures forall k :: 0 <= k < |indices| ==> indices[k] < |rows| && ShouldProcess(rows[indices[k]], rerun)
    ensures forall i :: 0 <= i < |rows| && ShouldProcess(rows[i], rerun) ==> i in indices
    ensures forall k, l :: 0 <= k < l < |indices| ==> indices[k] < indices[l]
  {
    indices := [];
    var i := 0;
    while i < |rows|
      invariant 0 <= i <= |rows|
      invariant forall k :: 0 <= k < |indices| ==> indices[k] < i && ShouldProcess(rows[indices[k]], rerun)
      invariant forall j :: 0 <= j < i && ShouldProcess(rows[j], rerun) ==> j in indices
      invariant forall k, l :: 0 <= k < l < |indices| ==> indices[k] < indices[l]
    {
      if ShouldProcess(rows[i], rerun) {
        indices := indices + [i];
      }
      i := i + 1;
    }
  }

  /** `metadata.get(key, '')`. */
  function MetaGet(metadata: map<string, string>, key: string): (v: string)
    ensures key in metadata ==> v == metadata[key]
    ensures key !in metadata ==> v == ""
  {
    if key in metadata then metadata[key] else ""
  }

  /** The row update: Summary, Acronym and Alias from the metadata, name and url kept. */
  function ApplyMetadata(row: Row, metadata: map<string, string>): (r: Row)
    ensures r.name == row.name && r.url == row.url
    ensures r.summary == MetaGet(metadata, "summary")
    ensures r.acronym == MetaGet(metadata, "acronym")
    ensures r.alias == MetaGet(metadata, "aliases")
  {
    row.(summary := MetaGet(metadata, "summary"),
         acronym := MetaGet(metadata, "acronym"),
         alias := MetaGet(metadata, "aliases"))
  }

  /**
    The description loop: each selected row, in turn, gets the metadata
    `describe` returns for its name; no other row changes.
   */
  method ProcessRows(rows: seq<Row>, indices: seq<nat>, describe: string -> map<string, string>)
    returns (out: seq<Row>)
    requires forall k :: 0 <= k < |indices| ==> indices[k] < |rows|
    ensures |out| == |rows|
    ensures forall i :: 0 <= i < |rows| && i in indices ==> out[i] == ApplyMetadata(rows[i], describe(rows[i].name))
    ensures forall i :: 0 <= i < |rows| && i !in indices ==> out[i] == rows[i]
  {
    out := rows;
    var k := 0;
    while k < |indices|
      invariant 0 <= k <= |indices|
      invariant |out| == |rows|
      invariant forall i :: 0 <= i < |rows| && i in indices[..k] ==>
                  out[i] == ApplyMetadata(rows[i], describe(rows[i].name))
      invariant forall i :: 0 <= i < |rows| && i !in indices[..k] ==> out[i] == rows[i]
    {
      var idx := indices[k];
      var metadata := describe(out[idx].name);
      assert indices[..k + 1] == indices[..k] + [idx];
      out := out[idx := ApplyMetadata(out[idx], metadata)];
      k := k + 1;
    }
    assert indices[..k] == indices;
  }

  /**
    The table-maintenance part of `main`: merge the candidates, select the
    rows to describe and describe them.
   */
  method DescribeAgencies(rows: seq<Row>, scraped: seq<Agency>, rerun: bool,
                          describe: string -> map<string, string>)
    returns (table: seq<Row>, selected: seq<nat>)
    ensures |table| == |rows| + |NewRows(scraped + Sideloaded, Names(rows))|
    ensures forall i :: 0 <= i < |rows| ==> table[i].name == rows[i].name && table[i].url == rows[i].url
    ensures forall i :: 0 <= i < |rows| ==> (i in selected <==> ShouldProcess(rows[i], rerun))
    ensures forall i :: 0 <= i < |rows| && i !in selected ==> table[i] == rows[i]
    ensures forall i :: |rows| <= i < |table| ==> i in selected
    ensures forall k :: 0 <= k < |selected| ==> selected[k] < |table|
    ensures forall k, l :: 0 <= k < l < |selected| ==> selected[k] < selected[l]
    ensures forall i :: 0 <= i < |table| && i in selected ==>
              var m := (rows + NewRows(scraped + Sideloaded, Names(rows)))[i];
              table[i] == ApplyMetadata(m, describe(m.name))
    ensures forall i :: |rows| <= i < |table| ==>
              var m := NewRows(scraped + Sideloaded, Names(rows))[i - |rows|];
              table[i] == ApplyMetadata(m, describe(m.name))
  {
    var merged := MergeAgencies(rows, scraped);
    NewRowsFresh(scraped + Sideloaded, Names(rows));
    selected := SelectRows(merged, rerun);
    table := ProcessRows(merged, selected, describe);
  }
}

=== FILE: json.dfy ===
/**
  JSON-like values as Python's `json` module loads them, together with the
  few Python built-ins the pipeline applies to them: truthiness, `dict.get`,
  `a or b` and `dict.update`.
 */
module Json {

  /** A JSON value. Numbers are integers; floating point is not modelled. */
  datatype Value =
    | Null
    | Bool(b: bool)
    | Num(n: int)
    | Str(s: string)
    | Arr(items: seq<Value>)
    | Obj(fields: map<string, Value>)

  /** A JSON object (a Python `dict` with string keys). */
  type Object = map<string, Value>

  /** Python truthiness: `None`, `False`, `0` and empty strings/lists/dicts are false. */
  predicate Truthy(v: Value)
  {
    match v
    case Null => false
    case Bool(b) => b
    case Num(n) => n != 0
    case Str(s) => |s| > 0
    case Arr(items) => |items| > 0
    case Obj(fields) => |fields| > 0
  }

  /** `d.get(k)`: the value under `k`, or `None` when the key is missing. */
  function Get(d: Object, k: string): (v: Value)
    ensures k in d ==> v == d[k]
    ensures k !in d ==> v == Null
  {
    if k in d then d[k] else Null
  }

  /** Python's `a or b`: the first operand when it is truthy, else the second. */
  function Or(a: Value, b: Value): (v: Value)
    ensures Truthy(v) <==> Truthy(a) || Truthy(b)
    ensures Truthy(a) ==> v == a
    ensures !Truthy(a) ==> v == b
  {
    if Truthy(a) then a else b
  }

  /** `d.update(e)`: every key of either, values of `e` winning on a clash. */
  function Update(d: Object, e: Object): (r: Object)
    ensures r.Keys == d.Keys + e.Keys
    ensures forall k :: k in e ==> r[k] == e[k]
    ensures forall k :: k in d && k !in e ==> r[k] == d[k]
  {
    d + e
  }
}

=== FILE: orchestrator.dfy ===
/**
  The per-bill stage gate of the pipeline's main loop. Download, convert,
  amend, QA and export are collaborators whose implementations are not part
  of this model: each is an arbitrary transformer of the store, and the run
  records which of them it invoked, in order, as a trace of events.
 */
module Orchestrator {
  import opened Json
  import opened PipelineState
  import StateProperties

  /** One collaborator invocation, or the loop's visit to a bill. */
  datatype Event =
    | RunDownload
    | Visit(bill: string)
    | RunConvert(bill: string)
    | RunAmend(bill: string)
    | RunQa(bill: string)
    | RunExport

  /**
    The stage implementations. `download` also yields the session's bill
    list; the others act on one bill. Their own I/O and model calls are
    folded into the functions.
   */
  datatype Collaborators = Collaborators(
    download: Store -> (Store, seq<string>),
    convert: (Store, string) -> Store,
    amend: (Store, string) -> Store,
    qa: (Store, string) -> Store,
    exportReport: Store -> Store)

  /** The loop's position inside one bill: the store, the record it last read, the events so far. */
  datatype Step = Step(store: Store, bill: Record, events: seq<Event>)

  /** `bill_data.get(key)` used as a condition. */
  predicate Flag(bill: Record, key: string)
  {
    Truthy(Get(bill, key))
  }

  /** The record held is the live one in the store. */
  predicate Fresh(step: Step, id: string)
  {
    id in step.store.data && step.bill == step.store.data[id] && Backfilled(step.bill)
  }

  /** Loop entry: `bill_data = state.get_bill(bill_number)`. */
  function Entry(st: Store, id: string, now: string): (r: Step)
    ensures Fresh(r, id)
    ensures r.events == [Visit(id)]
    ensures (r.store, r.bill) == GetBill(st, id, now)
  {
    var (s, b) := GetBill(st, id, now);
    Step(s, b, [Visit(id)])
  }

  /**
    A gate that runs `stage` when the held record's `key` flag is truthy and
    then, when `reread` is set, reads the record again.
   */
  function Gate(step: Step, id: string, now: string, key: string,
                stage: (Store, string) -> Store, event: Event, reread: bool): (r: Step)
    requires Fresh(step, id)
    ensures r.events == step.events + (if Flag(step.bill, key) then [event] else [])
    ensures !Flag(step.bill, key) ==> r == step
    ensures Flag(step.bill, key) ==>
              r.store == (if reread then GetBill(stage(step.store, id), id, now).0 else stage(step.store, id))
    ensures Flag(step.bill, key) && !reread ==> r.bill == step.bill
    ensures reread ==> Fresh(r, id)
  {
    if Flag(step.bill, key) then
      var ran := stage(step.store, id);
      if reread then
        var (s, b) := GetBill(ran, id, now);
        Step(s, b, step.events + [event])
      else Step(ran, step.bill, step.events + [event])
    else step
  }

  /** The convert stage and the re-read after it. */
  function ConvertGate(st: Store, id: string, now: string, c: Collaborators): Step
  {
    Gate(Entry(st, id, now), id, now, NeedsKey(Convert), c.convert, RunConvert(id), true)
  }

  /** The amend stage, gated on the record as it stands after the convert stage. */
  function AmendGate(st: Store, id: string, now: string, c: Collaborators): Step
  {
    Gate(ConvertGate(st, id, now, c), id, now, NeedsKey(Amend), c.amend, RunAmend(id), true)
  }

  /** One iteration of the loop: convert, then amend, then QA (which is not followed by a re-read). */
  function ProcessBill(st: Store, id: string, now: string, c: Collaborators): Step
  {
    Gate(AmendGate(st, id, now, c), id, now, NeedsKey(Qa), c.qa, RunQa(id), false)
  }

  /** The events of one visit: each concerns the bill and they are in strictly increasing rank. */
  predicate Ordered(events: seq<Event>, id: string)
  {
    && (forall i :: 0 <= i < |events| ==> Concerns(events[i], id))
    && (forall i, j :: 0 <= i < j < |events| ==> Rank(events[i]) < Rank(events[j]))
  }

  /** A gate extends an ordered trace by an event of higher rank, if at all. */
  lemma GateOrdered(step: Step, id: string, now: string, key: string,
                    stage: (Store, string) -> Store, event: Event, reread: bool)
    requires Fresh(step, id) && Ordered(step.events, id) && |step.events| >= 1
    requires Concerns(event, id)
    requires forall i :: 0 <= i < |step.events| ==> Rank(step.events[i]) < Rank(event)
    ensures var r := Gate(step, id, now, key, stage, event, reread);
      |r.events| >= 1 && r.events[0] == step.events[0] && Ordered(r.events, id)
    ensures var r := Gate(step, id, now, key, stage, event, reread);
      forall i :: 0 <= i < |r.events| ==> Rank(r.events[i]) <= Rank(event)
  {
    var r := Gate(step, id, now, key, stage, event, reread);
    if Flag(step.bill, key) {
      assert r.events == step.events + [event];
    }
  }

  /**
    One visit starts with the visit itself, then invokes convert, amend and
    QA in that order, each at most once, all for the visited bill.
   */
  lemma {:induction false} ProcessBillOrdered(st: Store, id: string, now: string, c: Collaborators)
    ensures |ProcessBill(st, id, now, c).events| >= 1
    ensures ProcessBill(st, id, now, c).events[0] == Visit(id)
    ensures Ordered(ProcessBill(st, id, now, c).events, id)
    ensures forall i, j :: 0 <= i < j < |ProcessBill(st, id, now, c).events| ==>
              ProcessBill(st, id, now, c).events[i] != ProcessBill(st, id, now, c).events[j]
  {
    var e := Entry(st, id, now);
    var cv := ConvertGate(st, id, now, c);
    var am := AmendGate(st, id, now, c);
    var r := ProcessBill(st, id, now, c);
    GateOrdered(e, id, now, NeedsKey(Convert), c.convert, RunConvert(id), true);
    GateOrdered(cv, id, now, NeedsKey(Amend), c.amend, RunAmend(id), true);
    GateOrdered(am, id, now, NeedsKey(Qa), c.qa, RunQa(id), false);
    OrderedDistinct(r.events, id);
  }

  /** Strictly increasing ranks never repeat an event. */
  lemma OrderedDistinct(events: seq<Event>, id: string)
    requires Ordered(events, id)
    ensures forall i, j :: 0 <= i < j < |events| ==> events[i] != events[j]
  {
  }

  /** Position of a per-bill event in the order visit, convert, amend, QA. */
  function Rank(e: Event): nat
  {
    match e
    case Visit(_) => 0
    case RunConvert(_) => 1
    case RunAmend(_) => 2
    case RunQa(_) => 3
    case _ => 4
  }

  /** A per-bill event about bill `id`. */
  predicate Concerns(e: Event, id: string)
  {
    PerBill(e) && e.bill == id
  }

  /** A visit or a per-bill stage invocation (anything but download and export). */
  predicate PerBill(e: Event)
  {
    e.Visit? || e.RunConvert? || e.RunAmend? || e.RunQa?
  }

  /**
    The stage gates decide on live records: convert runs iff the record read
    at loop entry needs it; amend runs iff the record in the store after the
    convert stage needs it; QA runs iff the record in the store after the
    amend stage needs it. Where no stage ran before a gate, the held
    snapshot and a fresh read agree.
   */
  lemma {:induction false} GatesReadLiveRecords(st: Store, id: string, now: string, c: Collaborators)
    ensures var events := ProcessBill(st, id, now, c).events;
      && (RunConvert(id) in events <==> Flag(GetBill(st, id, now).1, NeedsKey(Convert)))
      && (RunAmend(id) in events <==>
            Flag(GetBill(ConvertGate(st, id, now, c).store, id, now).1, NeedsKey(Amend)))
      && (RunQa(id) in events <==>
            Flag(GetBill(AmendGate(st, id, now, c).store, id, now).1, NeedsKey(Qa)))
  {
    var e := Entry(st, id, now);
    var cv := ConvertGate(st, id, now, c);
    var am := AmendGate(st, id, now, c);
    var r := ProcessBill(st, id, now, c);
    StateProperties.GetBillPresent(cv.store, id, now);
    StateProperties.GetBillPresent(am.store, id, now);
    assert RunConvert(id) in cv.events <==> Flag(e.bill, NeedsKey(Convert));
    assert RunConvert(id) !in e.events;
    assert RunAmend(id) !in cv.events;
    assert RunQa(id) !in am.events;
    assert RunConvert(id) in r.events <==> RunConvert(id) in cv.events;
    assert RunAmend(id) in r.events <==> RunAmend(id) in am.events;
  }

  /** The bill ids of the visits in a trace, in order. */
  function Visits(trace: seq<Event>): seq<string>
  {
    if |trace| == 0 then []
    else (if trace[0].Visit? then [trace[0].bill] else []) + Visits(trace[1..])
  }

  lemma {:induction false} VisitsAppend(a: seq<Event>, b: seq<Event>)
    ensures Visits(a + b) == Visits(a) + Visits(b)
    decreases |a|
  {
    if |a| > 0 {
      assert (a + b)[1..] == a[1..] + b;
      VisitsAppend(a[1..], b);
    } else {
      assert a + b == b;
    }
  }

  lemma {:induction false} NoVisitsAfterFirst(events: seq<Event>, id: string)
    requires forall i :: 0 <= i < |events| ==> Concerns(events[i], id) && Rank(events[i]) > 0
    ensures Visits(events) == []
    decreases |events|
  {
    if |events| > 0 {
      NoVisitsAfterFirst(events[1..], id);
    }
  }

  /** One visit records exactly one visit event, for its own bill. */
  lemma VisitsOfProcessBill(st: Store, id: string, now: string, c: Collaborators)
    ensures Visits(ProcessBill(st, id, now, c).events) == [id]
  {
    var events := ProcessBill(st, id, now, c).events;
    ProcessBillOrdered(st, id, now, c);
    VisitsAppend([events[0]], events[1..]);
    assert events == [events[0]] + events[1..];
    NoVisitsAfterFirst(events[1..], id);
  }

  /** The per-bill step of the loop, as a value. */
  function Visitor(now: string, c: Collaborators): (Store, string) -> Step
  {
    (s: Store, id: string) => ProcessBill(s, id, now, c)
  }

  /** The loop over a bill list: each bill processed in turn by `visit`, events concatenated. */
  function RunBills(st: Store, bills: seq<string>, visit: (Store, string) -> Step): (Store, seq<Event>)
    decreases |bills|
  {
    if |bills| == 0 then (st, [])
    else
      var step := visit(st, bills[0]);
      var rest := RunBills(step.store, bills[1..], visit);
      (rest.0, step.events + rest.1)
  }

  /** A per-bill step that records exactly one visit, to its own bill, and no download or export. */
  ghost predicate VisitsOnce(visit: (Store, string) -> Step)
  {
    forall s: Store, id: string ::
      && Visits(visit(s, id).events) == [id]
      && (forall j :: 0 <= j < |visit(s, id).events| ==> visit(s, id).events[j] != RunDownload)
      && (forall j :: 0 <= j < |visit(s, id).events| ==> visit(s, id).events[j] != RunExport)
  }

  /** A visit's events are all per-bill events: no download, no export. */
  lemma ProcessBillOnlyBillEvents(st: Store, id: string, now: string, c: Collaborators)
    ensures var events := ProcessBill(st, id, now, c).events;
      forall j :: 0 <= j < |events| ==> events[j] != RunDownload && events[j] != RunExport
  {
    ProcessBillOrdered(st, id, now, c);
  }

  /** The orchestrator's per-bill step is such a step. */
  lemma VisitorVisitsOnce(now: string, c: Collaborators)
    ensures VisitsOnce(Visitor(now, c))
  {
    var visit := Visitor(now, c);
    forall s: Store, id: string
      ensures Visits(visit(s, id).events) == [id]
      ensures forall j :: 0 <= j < |visit(s, id).events| ==> visit(s, id).events[j] != RunDownload
      ensures forall j :: 0 <= j < |visit(s, id).events| ==> visit(s, id).events[j] != RunExport
    {
      assert visit(s, id) == ProcessBill(s, id, now, c);
      VisitsOfProcessBill(s, id, now, c);
      ProcessBillOnlyBillEvents(s, id, now, c);
    }
  }

  /** The loop visits the bills exactly in list order. */
  lemma RunBillsVisitsInOrder(st: Store, bills: seq<string>, now: string, c: Collaborators)
    ensures Visits(RunBills(st, bills, Visitor(now, c)).1) == bills
  {
    VisitorVisitsOnce(now, c);
    RunBillsVisits(st, bills, Visitor(now, c));
  }

  /** Every step's events are about its own bill and never repeat. */
  ghost predicate StepsDistinct(visit: (Store, string) -> Step)
  {
    forall s: Store, id: string ::
      && (forall k :: 0 <= k < |visit(s, id).events| ==> Concerns(visit(s, id).events[k], id))
      && (forall i, j :: 0 <= i < j < |visit(s, id).events| ==> visit(s, id).events[i] != visit(s, id).events[j])
  }

  /** Per-bill events of one bill followed by distinct events of other bills are distinct. */
  lemma DistinctConcat(a: seq<Event>, b: seq<Event>, id: string, others: seq<string>)
    requires forall k :: 0 <= k < |a| ==> Concerns(a[k], id)
    requires forall i, j :: 0 <= i < j < |a| ==> a[i] != a[j]
    requires forall k :: 0 <= k < |b| ==> PerBill(b[k]) && b[k].bill in others
    requires forall i, j :: 0 <= i < j < |b| ==> b[i] != b[j]
    requires id !in others
    ensures forall k :: 0 <= k < |a + b| ==> PerBill((a + b)[k]) && (a + b)[k].bill in [id] + others
    ensures forall i, j :: 0 <= i < j < |a + b| ==> (a + b)[i] != (a + b)[j]
  {
    forall i, j | 0 <= i < j < |a + b|
      ensures (a + b)[i] != (a + b)[j]
    {
      if j >= |a| && i < |a| {
        assert (a + b)[j] == b[j - |a|] && (a + b)[i] == a[i];
      }
    }
  }

  /** The loop over a list without repeated bills never records the same event twice. */
  lemma {:induction false} RunBillsDistinct(st: Store, bills: seq<string>, visit: (Store, string) -> Step)
    requires StepsDistinct(visit)
    requires forall i, j :: 0 <= i < j < |bills| ==> bills[i] != bills[j]
    ensures forall k :: 0 <= k < |RunBills(st, bills, visit).1| ==>
              PerBill(RunBills(st, bills, visit).1[k]) && RunBills(st, bills, visit).1[k].bill in bills
    ensures forall i, j :: 0 <= i < j < |RunBills(st, bills, visit).1| ==>
              RunBills(st, bills, visit).1[i] != RunBills(st, bills, visit).1[j]
    decreases |bills|
  {
    if |bills| > 0 {
      var step := visit(st, bills[0]);
      RunBillsStep(st, bills, visit);
      RunBillsDistinct(step.store, bills[1..], visit);
      assert bills == [bills[0]] + bills[1..];
      assert bills[0] !in bills[1..];
      DistinctConcat(step.events, RunBills(step.store, bills[1..], visit).1, bills[0], bills[1..]);
    }
  }

  /** The orchestrator's per-bill step keeps to its own bill and repeats no event. */
  lemma VisitorStepsDistinct(now: string, c: Collaborators)
    ensures StepsDistinct(Visitor(now, c))
  {
    var visit := Visitor(now, c);
    forall s: Store, id: string
      ensures forall k :: 0 <= k < |visit(s, id).events| ==> Concerns(visit(s, id).events[k], id)
      ensures forall i, j :: 0 <= i < j < |visit(s, id).events| ==> visit(s, id).events[i] != visit(s, id).events[j]
    {
      assert visit(s, id) == ProcessBill(s, id, now, c);
      ProcessBillOrdered(s, id, now, c);
    }
  }

  /**
    Over a list without repeated bills, each bill is visited once and each
    of its stages is invoked at most once in the whole run.
   */
  lemma LoopEventsDistinct(st: Store, bills: seq<string>, now: string, c: Collaborators)
    requires forall i, j :: 0 <= i < j < |bills| ==> bills[i] != bills[j]
    ensures forall i, j :: 0 <= i < j < |RunBills(st, bills, Visitor(now, c)).1| ==>
              RunBills(st, bills, Visitor(now, c)).1[i] != RunBills(st, bills, Visitor(now, c)).1[j]
  {
    VisitorStepsDistinct(now, c);
    RunBillsDistinct(st, bills, Visitor(now, c));
  }

  /** No stage collaborator ever drops a bill from the store. */
  ghost predicate KeepsBills(c: Collaborators)
  {
    && (forall s: Store, id: string :: s.data.Keys <= c.convert(s, id).data.Keys)
    && (forall s: Store, id: string :: s.data.Keys <= c.amend(s, id).data.Keys)
    && (forall s: Store, id: string :: s.data.Keys <= c.qa(s, id).data.Keys)
  }

  /** With collaborators that keep bills, every listed bill has a record after the loop. */
  lemma {:induction false} EveryBillRecorded(st: Store, bills: seq<string>, now: string, c: Collaborators)
    requires KeepsBills(c)
    ensures st.data.Keys <= RunBills(st, bills, Visitor(now, c)).0.data.Keys
    ensures forall b :: b in bills ==> b in RunBills(st, bills, Visitor(now, c)).0.data
    decreases |bills|
  {
    if |bills| > 0 {
      var cv := ConvertGate(st, bills[0], now, c);
      var am := AmendGate(st, bills[0], now, c);
      var step := ProcessBill(st, bills[0], now, c);
      assert bills[0] in step.store.data && st.data.Keys <= step.store.data.Keys;
      EveryBillRecorded(step.store, bills[1..], now, c);
      forall b | b in bills
        ensures b in RunBills(st, bills, Visitor(now, c)).0.data
      {
        if b != bills[0] {
          assert b in bills[1..];
        }
      }
    }
  }

  /** One turn of the loop: the first bill's step, then the rest of the list. */
  lemma RunBillsStep(st: Store, bills: seq<string>, visit: (Store, string) -> Step)
    requires |bills| > 0
    ensures var step := visit(st, bills[0]);
      RunBills(st, bills, visit) ==
        (RunBills(step.store, bills[1..], visit).0, step.events + RunBills(step.store, bills[1..], visit).1)
  {
  }

  /**
    The per-bill loop of `main`: every bill of the list visited in order,
    the store threaded through, the events appended to the trace.
   */
  method RunLoop(st: Store, bills: seq<string>, visit: (Store, string) -> Step, before: seq<Event>)
    returns (s: Store, trace: seq<Event>)
    requires VisitsOnce(visit)
    ensures s == RunBills(st, bills, visit).0
    ensures trace == before + RunBills(st, bills, visit).1
    ensures Visits(trace) == Visits(before) + bills
    ensures forall j :: |before| <= j < |trace| ==> trace[j] != RunDownload && trace[j] != RunExport
  {
    s := st;
    trace := before;
    var i := 0;
    assert bills[i..] == bills;
    while i < |bills|
      invariant 0 <= i <= |bills|
      invariant RunBills(st, bills, visit).0 == RunBills(s, bills[i..], visit).0
      invariant before + RunBills(st, bills, visit).1 == trace + RunBills(s, bills[i..], visit).1
    {
      var step := visit(s, bills[i]);
      ghost var rest := RunBills(step.store, bills[i + 1..], visit);
      RunBillsStep(s, bills[i..], visit);
      assert bills[i..][0] == bills[i] && bills[i..][1..] == bills[i + 1..];
      assert trace + RunBills(s, bills[i..], visit).1 == (trace + step.events) + rest.1;
      s := step.store;
      trace := trace + step.events;
      i := i + 1;
    }
    assert bills[i..] == [];
    RunBillsVisits(st, bills, visit);
    VisitsAppend(before, RunBills(st, bills, visit).1);
  }

  /**
    A loop whose step visits its own bill once and never downloads or
    exports visits exactly the list, in order, and neither downloads nor
    exports.
   */
  lemma {:induction false} RunBillsVisits(st: Store, bills: seq<string>, visit: (Store, string) -> Step)
    requires VisitsOnce(visit)
    ensures Visits(RunBills(st, bills, visit).1) == bills
    ensures forall j :: 0 <= j < |RunBills(st, bills, visit).1| ==>
              RunBills(st, bills, visit).1[j] != RunDownload && RunBills(st, bills, visit).1[j] != RunExport
    decreases |bills|
  {
    if |bills| > 0 {
      var step := visit(st, bills[0]);
      var rest := RunBills(step.store, bills[1..], visit);
      RunBillsStep(st, bills, visit);
      RunBillsVisits(step.store, bills[1..], visit);
      VisitsAppend(step.events, rest.1);
      assert bills == [bills[0]] + bills[1..];
      var all := step.events + rest.1;
      assert forall j :: |step.events| <= j < |all| ==> all[j] == rest.1[j - |step.events|];
    }
  }

  /** Download at the front and export at the end bracket a trace that holds neither. */
  lemma Bracketed(middle: seq<Event>)
    requires forall j :: 0 <= j < |middle| ==> middle[j] != RunDownload && middle[j] != RunExport
    ensures var trace := [RunDownload] + middle + [RunExport];
      && trace[0] == RunDownload && trace[|trace| - 1] == RunExport
      && (forall i :: 0 < i < |trace| ==> trace[i] != RunDownload)
      && (forall i :: 0 <= i < |trace| - 1 ==> trace[i] != RunExport)
      && Visits(trace) == Visits(middle)
  {
    var trace := [RunDownload] + middle + [RunExport];
    forall i | 0 < i < |trace| - 1
      ensures trace[i] == middle[i - 1]
    {
    }
    VisitsAppend([RunDownload], middle);
    VisitsAppend([RunDownload] + middle, [RunExport]);
  }

  /**
    Download once, run the per-bill loop with `visit` over the returned
    list, export once.
   */
  method RunStages(st: Store, download: Store -> (Store, seq<string>),
                   visit: (Store, string) -> Step, exportReport: Store -> Store)
    returns (final: Store, bills: seq<string>, trace: seq<Event>)
    requires VisitsOnce(visit)
    ensures bills == download(st).1
    ensures final == exportReport(RunBills(download(st).0, bills, visit).0)
    ensures trace == [RunDownload] + RunBills(download(st).0, bills, visit).1 + [RunExport]
    ensures trace[0] == RunDownload && trace[|trace| - 1] == RunExport
    ensures forall i :: 0 < i < |trace| ==> trace[i] != RunDownload
    ensures forall i :: 0 <= i < |trace| - 1 ==> trace[i] != RunExport
    ensures Visits(trace) == bills
  {
    var downloaded := download(st);
    bills := downloaded.1;
    var s, middle := RunLoop(downloaded.0, bills, visit, []);
    final := exportReport(s);
    Bracketed(middle);
    trace := [RunDownload] + middle + [RunExport];
  }

  /**
    `main` from the download stage on: download once, the per-bill loop over
    the returned list, export once.
   */
  method RunPipeline(st: Store, now: string, c: Collaborators)
    returns (final: Store, bills: seq<string>, trace: seq<Event>)
    ensures bills == c.download(st).1
    ensures final == c.exportReport(RunBills(c.download(st).0, bills, Visitor(now, c)).0)
    ensures trace == [RunDownload] + RunBills(c.download(st).0, bills, Visitor(now, c)).1 + [RunExport]
    ensures trace[0] == RunDownload && trace[|trace| - 1] == RunExport
    ensures forall i :: 0 < i < |trace| ==> trace[i] != RunDownload
    ensures forall i :: 0 <= i < |trace| - 1 ==> trace[i] != RunExport
    ensures Visits(trace) == bills
  {
    VisitorVisitsOnce(now, c);
    final, bills, trace := RunStages(st, c.download, Visitor(now, c), c.exportReport);
  }
}

=== FILE: state.dfy ===
/**
  The incremental pipeline state store: a map from bill number to a per-bill
  record, created lazily with fixed defaults, merged into by partial updates,
  marked dirty along the fixed stage order and purged of orphaned bills.

  The Python class mutates `self.data` in place and rewrites the JSON state
  file on `save()`. Here the store is a value: `data` is the in-memory map
  and `disk` is the snapshot the state file holds (`None` while no file
  exists). Every operation is a pure function from one store to the next.
 */
module PipelineState {
  import opened Json
  import opened Wrappers

  /** One bill's record: a JSON object. */
  type Record = Object

  /** The whole state document: bill number to record. */
  type Data = map<string, Record>

  /** In-memory state together with the last snapshot written to disk. */
  datatype Store = Store(data: Data, disk: Option<Data>)

  /** The pipeline stages, in their fixed order. */
  datatype Stage = Download | Convert | Amend | Qa

  /** The stage list `['download', 'convert', 'amend', 'qa']`. */
  const Stages: seq<Stage> := [Download, Convert, Amend, Qa]

  /** Position of a stage in the stage list. */
  function Index(s: Stage): (i: nat)
    ensures i < |Stages| && Stages[i] == s
  {
    match s
    case Download => 0
    case Convert => 1
    case Amend => 2
    case Qa => 3
  }

  /** The record key `f"needs_{stage}"`. */
  function NeedsKey(s: Stage): string
  {
    match s
    case Download => "needs_download"
    case Convert => "needs_convert"
    case Amend => "needs_amend"
    case Qa => "needs_qa"
  }

  lemma NeedsKeyInjective(s: Stage, t: Stage)
    ensures NeedsKey(s) == NeedsKey(t) <==> s == t
  {
    assert |NeedsKey(s)| == |NeedsKey(t)| ==> s == t;
  }

  /** True when the file snapshot equals the in-memory state. */
  predicate Saved(st: Store)
  {
    st.disk == Some(st.data)
  }

  /**
    Constructing the store: the loaded state file, or the empty map when no
    file exists (first run). Parsing the file is not part of the model.
   */
  function Open(file: Option<Data>): (st: Store)
    ensures file.None? ==> st.data == map[]
    ensures file.Some? ==> Saved(st) && st.data == file.value
    ensures st.disk == file
  {
    Store(file.GetOr(map[]), file)
  }

  /** `save()`: the whole state document is written out. */
  function Save(st: Store): (r: Store)
    ensures Saved(r)
    ensures r.data == st.data
  {
    Store(st.data, Some(st.data))
  }

  /** The record a never-seen bill starts with. */
  function DefaultRecord(now: string): Record
  {
    map[
      "first_seen" := Str(now),
      "last_updated" := Str(now),
      "last_seen" := Null,
      "needs_download" := Bool(true),
      "needs_convert" := Bool(false),
      "needs_amend" := Bool(false),
      "needs_qa" := Bool(false),
      "files" := Obj(map[]),
      "qa_results" := Null,
      "amended_status" := Str("original"),
      "amend_input_hash" := Null,
      "qa_input_hash" := Null
    ]
  }

  /** A record carries the two fields sorting relies on. */
  predicate Backfilled(bill: Record)
  {
    "first_seen" in bill && "last_updated" in bill
  }

  /** Older-schema records get `first_seen` and `last_updated` when missing. */
  function Backfill(bill: Record, now: string): (r: Record)
    ensures Backfilled(r)
    ensures r.Keys == bill.Keys + {"first_seen", "last_updated"}
    ensures forall k :: k in bill ==> r[k] == bill[k]
  {
    var withFirst :=
      if "first_seen" !in bill then bill["first_seen" := Or(Get(bill, "last_seen"), Str(now))]
      else bill;
    if "last_updated" !in withFirst then
      withFirst["last_updated" := Or(Get(withFirst, "last_updated_local"), withFirst["first_seen"])]
    else withFirst
  }

  /**
    `get_bill`: the bill's record, created with defaults when absent and
    backfilled when present. The result is not saved.
   */
  function GetBill(st: Store, id: string, now: string): (r: (Store, Record))
    ensures r.0.disk == st.disk
    ensures r.0.data.Keys == st.data.Keys + {id}
    ensures forall k :: k in st.data && k != id ==> r.0.data[k] == st.data[k]
    ensures id in r.0.data && r.0.data[id] == r.1
    ensures Backfilled(r.1)
    ensures id in st.data ==> r.1.Keys == st.data[id].Keys + {"first_seen", "last_updated"}
    ensures id in st.data ==> forall k :: k in st.data[id] ==> r.1[k] == st.data[id][k]
  {
    var bill := if id in st.data then Backfill(st.data[id], now) else DefaultRecord(now);
    (st.(data := st.data[id := bill]), bill)
  }

  /** The value `update_bill` stores under `k` when the update carries `v`. */
  function MergeValue(bill: Record, k: string, v: Value): Value
  {
    if v.Obj? && k in bill && bill[k].Obj? then Obj(Update(bill[k].fields, v.fields)) else v
  }

  /** Both the update and the existing value under `k` are dicts. */
  predicate BothObjects(bill: Record, updates: Object, k: string)
  {
    k in updates && updates[k].Obj? && k in bill && bill[k].Obj?
  }

  /**
    The merge loop of `update_bill`: one level of dict update where both
    sides are dicts, plain replacement otherwise.
   */
  function Merge(bill: Record, updates: Object): (r: Record)
    ensures r.Keys == bill.Keys + updates.Keys
    ensures forall k :: k in bill && k !in updates ==> r[k] == bill[k]
    ensures forall k :: k in updates && !BothObjects(bill, updates, k) ==> r[k] == updates[k]
    ensures forall k :: BothObjects(bill, updates, k) ==>
              r[k].Obj? && r[k].fields.Keys == bill[k].fields.Keys + updates[k].fields.Keys
  {
    map k | k in bill.Keys + updates.Keys ::
      if k in updates then MergeValue(bill, k, updates[k]) else bill[k]
  }

  /** Inside a merged dict, new inner values win and old inner keys survive. */
  lemma MergeOneLevel(bill: Record, updates: Object, k: string, ik: string)
    requires BothObjects(bill, updates, k)
    ensures ik in updates[k].fields ==> Merge(bill, updates)[k].fields[ik] == updates[k].fields[ik]
    ensures ik in bill[k].fields && ik !in updates[k].fields ==>
              Merge(bill, updates)[k].fields[ik] == bill[k].fields[ik]
  {
  }

  /**
    `update_bill`: fetch (or create) the record, merge the updates into it,
    stamp `last_updated_local` and save the whole store.
   */
  function UpdateBill(st: Store, id: string, updates: Object, now: string): (r: Store)
    ensures Saved(r)
    ensures r.data.Keys == st.data.Keys + {id}
    ensures forall k :: k in st.data && k != id ==> r.data[k] == st.data[k]
    ensures id in r.data && "last_updated_local" in r.data[id]
    ensures r.data[id]["last_updated_local"] == Str(now)
    ensures r.data[id].Keys == GetBill(st, id, now).1.Keys + updates.Keys + {"last_updated_local"}
    ensures forall k :: k in GetBill(st, id, now).1 && k !in updates && k != "last_updated_local" ==>
              r.data[id][k] == GetBill(st, id, now).1[k]
    ensures forall k :: k in updates && k != "last_updated_local" ==>
              r.data[id][k] == Merge(GetBill(st, id, now).1, updates)[k]
  {
    var (fetched, bill) := GetBill(st, id, now);
    var merged := Merge(bill, updates)["last_updated_local" := Str(now)];
    Save(fetched.(data := fetched.data[id := merged]))
  }

  /** The updates `mark_dirty` builds: `needs_t = True` for the stages from index `i` on. */
  function DirtyFrom(i: nat): (u: Object)
    requires i <= |Stages|
    ensures forall t :: NeedsKey(t) in u <==> i <= Index(t)
    ensures forall k :: k in u ==> u[k] == Bool(true)
    decreases |Stages| - i
  {
    if i == |Stages| then map[]
    else
      var rest := DirtyFrom(i + 1);
      assert forall t :: NeedsKey(t) == NeedsKey(Stages[i]) ==> t == Stages[i] by {
        forall t { NeedsKeyInjective(t, Stages[i]); }
      }
      rest[NeedsKey(Stages[i]) := Bool(true)]
  }

  /**
    `mark_dirty`: the needs flag of `stage` and of every later stage becomes
    true, through `update_bill` (so the store is saved).
   */
  function MarkDirty(st: Store, id: string, stage: Stage, now: string): (r: Store)
    ensures Saved(r)
    ensures r.data.Keys == st.data.Keys + {id}
    ensures forall k :: k in st.data && k != id ==> r.data[k] == st.data[k]
    ensures id in r.data
    ensures forall t :: Index(stage) <= Index(t) ==>
              NeedsKey(t) in r.data[id] && r.data[id][NeedsKey(t)] == Bool(true)
    ensures forall t :: Index(t) < Index(stage) ==>
              Get(r.data[id], NeedsKey(t)) == Get(GetBill(st, id, now).1, NeedsKey(t))
    ensures id in st.data ==> forall t :: Index(t) < Index(stage) ==>
              Get(r.data[id], NeedsKey(t)) == Get(st.data[id], NeedsKey(t))
    ensures r.data[id].Keys == GetBill(st, id, now).1.Keys + DirtyFrom(Index(stage)).Keys + {"last_updated_local"}
    ensures "last_updated_local" in r.data[id] && r.data[id]["last_updated_local"] == Str(now)
    ensures forall k :: k in GetBill(st, id, now).1 && k !in DirtyFrom(Index(stage)) && k != "last_updated_local" ==>
              r.data[id][k] == GetBill(st, id, now).1[k]
  {
    MarkDirtyFlags(st, id, stage, now);
    UpdateBill(st, id, DirtyFrom(Index(stage)), now)
  }

  /** A needs flag is never the timestamp key `update_bill` writes. */
  lemma NeedsKeyNotStamp(t: Stage)
    ensures NeedsKey(t) != "last_updated_local"
  {
    assert |NeedsKey(t)| < |"last_updated_local"|;
  }

  /** What `update_bill` leaves under one key other than the timestamp. */
  lemma UpdateBillKey(st: Store, id: string, updates: Object, now: string, k: string)
    requires k != "last_updated_local"
    ensures var r := UpdateBill(st, id, updates, now);
      k in updates ==> k in r.data[id] && r.data[id][k] == Merge(GetBill(st, id, now).1, updates)[k]
    ensures var r := UpdateBill(st, id, updates, now);
      k !in updates ==> Get(r.data[id], k) == Get(GetBill(st, id, now).1, k)
  {
  }

  /** The flag-by-flag effect of the dirty update, one stage `t` at a time. */
  lemma MarkDirtyFlag(st: Store, id: string, stage: Stage, now: string, t: Stage)
    ensures var r := UpdateBill(st, id, DirtyFrom(Index(stage)), now);
      Index(stage) <= Index(t) ==> NeedsKey(t) in r.data[id] && r.data[id][NeedsKey(t)] == Bool(true)
    ensures var r := UpdateBill(st, id, DirtyFrom(Index(stage)), now);
      Index(t) < Index(stage) ==> Get(r.data[id], NeedsKey(t)) == Get(GetBill(st, id, now).1, NeedsKey(t))
    ensures var r := UpdateBill(st, id, DirtyFrom(Index(stage)), now);
      id in st.data && Index(t) < Index(stage) ==> Get(r.data[id], NeedsKey(t)) == Get(st.data[id], NeedsKey(t))
  {
    if id in st.data {
      GetBillFlag(st, id, now, t);
    }
    var u := DirtyFrom(Index(stage));
    var k := NeedsKey(t);
    NeedsKeyNotStamp(t);
    UpdateBillKey(st, id, u, now, k);
    if Index(stage) <= Index(t) {
      assert !BothObjects(GetBill(st, id, now).1, u, k);
    }
  }

  /** A flag the read leaves alone: `get_bill` only adds `first_seen` and `last_updated`. */
  lemma GetBillFlag(st: Store, id: string, now: string, t: Stage)
    requires id in st.data
    ensures Get(GetBill(st, id, now).1, NeedsKey(t)) == Get(st.data[id], NeedsKey(t))
  {
    assert |NeedsKey(t)| != |"first_seen"| && |NeedsKey(t)| != |"last_updated"|;
  }

  /** The dirty update's effect on every flag. */
  lemma MarkDirtyFlags(st: Store, id: string, stage: Stage, now: string)
    ensures var r := UpdateBill(st, id, DirtyFrom(Index(stage)), now);
      forall t :: Index(stage) <= Index(t) ==> NeedsKey(t) in r.data[id] && r.data[id][NeedsKey(t)] == Bool(true)
    ensures var r := UpdateBill(st, id, DirtyFrom(Index(stage)), now);
      forall t :: Index(t) < Index(stage) ==> Get(r.data[id], NeedsKey(t)) == Get(GetBill(st, id, now).1, NeedsKey(t))
    ensures var r := UpdateBill(st, id, DirtyFrom(Index(stage)), now);
      id in st.data ==> forall t :: Index(t) < Index(stage) ==> Get(r.data[id], NeedsKey(t)) == Get(st.data[id], NeedsKey(t))
  {
    forall t: Stage {
      MarkDirtyFlag(st, id, stage, now, t);
    }
  }

  /** The keys `clean_state` keeps: those still in the master list. */
  function Kept(data: Data, current: seq<string>): (m: Data)
    ensures m.Keys == data.Keys * (set k | k in current)
    ensures forall k :: k in m ==> m[k] == data[k]
  {
    map k | k in data && k in current :: data[k]
  }

  /**
    `clean_state`: drops every bill missing from `current`, and saves only
    when at least one was dropped. Also yields the removed count.
   */
  function CleanState(st: Store, current: seq<string>): (r: (Store, int))
    ensures r.0.data.Keys == st.data.Keys * (set k | k in current)
    ensures forall k :: k in r.0.data ==> r.0.data[k] == st.data[k]
    ensures r.1 == |st.data| - |r.0.data|
    ensures r.1 >= 0
    ensures r.1 > 0 ==> Saved(r.0)
    ensures r.1 == 0 ==> r.0 == st
  {
    var kept := Kept(st.data, current);
    SubsetCardinality(kept.Keys, st.data.Keys);
    var removed := |st.data| - |kept|;
    if removed > 0 then (Save(st.(data := kept)), removed)
    else
      assert kept.Keys == st.data.Keys by {
        SubsetCardinality(kept.Keys, st.data.Keys);
      }
      assert kept == st.data;
      (st, removed)
  }

  /** A subset is no larger than its superset, and a proper subset is smaller. */
  lemma {:induction false} SubsetCardinality<T>(a: set<T>, b: set<T>)
    requires a <= b
    ensures |a| <= |b|
    ensures a < b ==> |a| < |b|
  {
    if a != {} {
      var x :| x in a;
      SubsetCardinality(a - {x}, b - {x});
    }
  }
}

=== FILE: state_properties.dfy ===
/** Properties of the state store that relate several calls or spell out the record defaults. */
module StateProperties {
  import opened Json
  import opened PipelineState

  /** A never-seen bill starts with exactly the default fields. */
  lemma FreshBillDefaults(st: Store, id: string, now: string)
    requires id !in st.data
    ensures var bill := GetBill(st, id, now).1;
      && bill.Keys == {"first_seen", "last_updated", "last_seen", "needs_download", "needs_convert",
                       "needs_amend", "needs_qa", "files", "qa_results", "amended_status",
                       "amend_input_hash", "qa_input_hash"}
      && bill["needs_download"] == Bool(true)
      && bill["needs_convert"] == Bool(false)
      && bill["needs_amend"] == Bool(false)
      && bill["needs_qa"] == Bool(false)
      && bill["files"] == Obj(map[])
      && bill["amended_status"] == Str("original")
      && bill["last_seen"] == Null
      && bill["qa_results"] == Null
      && bill["amend_input_hash"] == Null
      && bill["qa_input_hash"] == Null
      && bill["first_seen"] == bill["last_updated"] == Str(now)
  {
    assert GetBill(st, id, now).1 == DefaultRecord(now);
  }

  /**
    Backfilling an older record: `first_seen` falls back to a truthy
    `last_seen`, else to `now`; `last_updated` falls back to a truthy
    `last_updated_local`, else to `first_seen`; `last_seen` is left alone.
   */
  lemma BackfillFallbacks(st: Store, id: string, now: string)
    requires id in st.data
    ensures var old_ := st.data[id];
            var bill := GetBill(st, id, now).1;
      && ("first_seen" !in old_ ==>
            bill["first_seen"] == (if Truthy(Get(old_, "last_seen")) then old_["last_seen"] else Str(now)))
      && ("last_updated" !in old_ ==>
            bill["last_updated"] ==
              (if Truthy(Get(old_, "last_updated_local")) then old_["last_updated_local"]
               else bill["first_seen"]))
      && Get(bill, "last_seen") == Get(old_, "last_seen")
  {
  }

  /** Reading a bill that is present and already backfilled changes nothing. */
  lemma GetBillPresent(st: Store, id: string, now: string)
    requires id in st.data && Backfilled(st.data[id])
    ensures GetBill(st, id, now) == (st, st.data[id])
  {
    assert Backfill(st.data[id], now) == st.data[id];
    assert st.data[id := st.data[id]] == st.data;
  }

  /** Reading a bill twice is reading it once: the second read changes nothing. */
  lemma GetBillIdempotent(st: Store, id: string, now: string, later: string)
    ensures GetBill(GetBill(st, id, now).0, id, later) == GetBill(st, id, now)
  {
    GetBillPresent(GetBill(st, id, now).0, id, later);
  }

  /** The only keys `mark_dirty` ever updates are the four needs flags. */
  lemma {:induction false} DirtyFromKeys(i: nat)
    requires i <= |Stages|
    ensures forall k :: k in DirtyFrom(i) ==> exists t :: k == NeedsKey(t)
    decreases |Stages| - i
  {
    if i < |Stages| {
      DirtyFromKeys(i + 1);
      assert NeedsKey(Stages[i]) == NeedsKey(Stages[i]);
    }
  }

  /**
    Merging values a record already holds leaves it as it was; a dict value
    merged into an equal dict is that dict again.
   */
  lemma MergeAlreadyPresent(bill: Record, updates: Object)
    requires forall k :: k in updates ==> k in bill && bill[k] == updates[k]
    ensures Merge(bill, updates) == bill
  {
    forall k | k in updates && updates[k].Obj?
      ensures Merge(bill, updates)[k] == bill[k]
    {
      assert Update(bill[k].fields, updates[k].fields) == bill[k].fields;
    }
  }

  /**
    An update that only restates values a saved, backfilled record already
    holds, at the time it was last stamped, changes nothing.
   */
  lemma UpdateBillNoop(st: Store, id: string, updates: Object, now: string)
    requires Saved(st) && id in st.data && Backfilled(st.data[id])
    requires "last_updated_local" in st.data[id] && st.data[id]["last_updated_local"] == Str(now)
    requires forall k :: k in updates ==> k in st.data[id] && st.data[id][k] == updates[k]
    ensures UpdateBill(st, id, updates, now) == st
  {
    var b := st.data[id];
    GetBillPresent(st, id, now);
    MergeAlreadyPresent(b, updates);
    assert b["last_updated_local" := Str(now)] == b;
    assert st.data[id := b] == st.data;
  }

  /** Marking the same stage dirty twice, at the same time, is marking it once. */
  lemma MarkDirtyIdempotent(st: Store, id: string, stage: Stage, now: string)
    ensures MarkDirty(MarkDirty(st, id, stage, now), id, stage, now) == MarkDirty(st, id, stage, now)
  {
    var u := DirtyFrom(Index(stage));
    var once := MarkDirty(st, id, stage, now);
    assert once == UpdateBill(st, id, u, now);
    DirtyFromKeys(Index(stage));
    forall k | k in u
      ensures k in once.data[id] && once.data[id][k] == u[k] && !u[k].Obj?
    {
      var t :| k == NeedsKey(t);
    }
    UpdateBillNoop(once, id, u, now);
    assert MarkDirty(once, id, stage, now) == UpdateBill(once, id, u, now);
  }

  /** Cleaning twice against the same list removes nothing the second time. */
  lemma CleanStateIdempotent(st: Store, current: seq<string>)
    ensures CleanState(CleanState(st, current).0, current) == (CleanState(st, current).0, 0)
  {
  }
}

=== FILE: text.dfy ===
/**
  The string operations the agency list applies to names: Python's
  `str.strip()` (on ASCII whitespace), `str.lower()` (on ASCII letters),
  `startswith` and the substring test `sub in s`.
 */
module Text {

  /** The ASCII characters Python's `str.isspace()` accepts. */
  predicate IsSpace(ch: char)
  {
    ch == ' ' || ('\t' <= ch <= '\r') || ('\U{1C}' <= ch <= '\U{1F}')
  }

  /** Every character of `s` is whitespace. */
  predicate AllSpace(s: string)
  {
    forall k :: 0 <= k < |s| ==> IsSpace(s[k])
  }

  /** `s.lstrip()`. */
  function TrimStart(s: string): string
    decreases |s|
  {
    if |s| > 0 && IsSpace(s[0]) then TrimStart(s[1..]) else s
  }

  /** `s.rstrip()`. */
  function TrimEnd(s: string): string
    decreases |s|
  {
    if |s| > 0 && IsSpace(s[|s| - 1]) then TrimEnd(s[..|s| - 1]) else s
  }

  /** `s.strip()`. */
  function Strip(s: string): string
  {
    TrimEnd(TrimStart(s))
  }

  /** `lstrip` removes exactly a whitespace prefix, up to the first other character. */
  lemma {:induction false} TrimStartSpec(s: string)
    ensures |TrimStart(s)| <= |s|
    ensures TrimStart(s) == s[|s| - |TrimStart(s)|..]
    ensures AllSpace(s[..|s| - |TrimStart(s)|])
    ensures |TrimStart(s)| > 0 ==> !IsSpace(TrimStart(s)[0])
    decreases |s|
  {
    if |s| > 0 && IsSpace(s[0]) {
      TrimStartSpec(s[1..]);
      var n := |s| - |TrimStart(s)|;
      assert s[1..][n - 1..] == s[n..];
      assert forall k :: 1 <= k < n ==> s[k] == s[1..][k - 1];
    }
  }

  /** `rstrip` removes exactly a whitespace suffix, back to the last other character. */
  lemma {:induction false} TrimEndSpec(s: string)
    ensures |TrimEnd(s)| <= |s|
    ensures TrimEnd(s) == s[..|TrimEnd(s)|]
    ensures AllSpace(s[|TrimEnd(s)|..])
    ensures |TrimEnd(s)| > 0 ==> !IsSpace(TrimEnd(s)[|TrimEnd(s)| - 1])
    decreases |s|
  {
    if |s| > 0 && IsSpace(s[|s| - 1]) {
      var t := s[..|s| - 1];
      TrimEndSpec(t);
      var n := |TrimEnd(s)|;
      assert t[..n] == s[..n];
      assert forall k :: n <= k < |s| - 1 ==> s[k] == t[k];
    }
  }

  /** `r` is `s` with the whitespace before position `i` and after `i + |r|` cut away. */
  predicate StripsTo(s: string, r: string, i: int)
  {
    && 0 <= i <= i + |r| <= |s|
    && s[i..i + |r|] == r
    && AllSpace(s[..i])
    && AllSpace(s[i + |r|..])
  }

  /**
    `strip` cuts whitespace, and only whitespace, from both ends, leaving a
    string that neither starts nor ends with whitespace; it is empty exactly
    for all-whitespace input.
   */
  lemma StripSpec(s: string)
    ensures StripsTo(s, Strip(s), |s| - |TrimStart(s)|)
    ensures |Strip(s)| > 0 ==> !IsSpace(Strip(s)[0]) && !IsSpace(Strip(s)[|Strip(s)| - 1])
    ensures Strip(s) == "" <==> AllSpace(s)
  {
    StripCuts(s);
    StripEnds(s);
    StripEmpty(s);
  }

  lemma StripCuts(s: string)
    ensures StripsTo(s, Strip(s), |s| - |TrimStart(s)|)
  {
    var i := |s| - |TrimStart(s)|;
    var rest := TrimStart(s);
    var r := Strip(s);
    TrimStartSpec(s);
    TrimEndSpec(rest);
    assert s[i..] == rest;
    assert s[i..i + |r|] == rest[..|r|];
    assert s[i + |r|..] == rest[|r|..];
  }

  lemma StripEnds(s: string)
    ensures |Strip(s)| > 0 ==> !IsSpace(Strip(s)[0]) && !IsSpace(Strip(s)[|Strip(s)| - 1])
  {
    var rest := TrimStart(s);
    var r := Strip(s);
    TrimStartSpec(s);
    TrimEndSpec(rest);
    if |r| > 0 {
      assert r[0] == rest[0];
    }
  }

  lemma StripEmpty(s: string)
    ensures Strip(s) == "" <==> AllSpace(s)
  {
    var i := |s| - |TrimStart(s)|;
    var rest := TrimStart(s);
    var r := Strip(s);
    TrimStartSpec(s);
    TrimEndSpec(rest);
    if r == "" {
      assert rest[|r|..] == rest;
      assert s == s[..i] + rest;
      AllSpaceAppend(s[..i], rest);
    }
  }

  lemma AllSpaceAppend(a: string, b: string)
    requires AllSpace(a) && AllSpace(b)
    ensures AllSpace(a + b)
  {
    assert forall k :: |a| <= k < |a + b| ==> (a + b)[k] == b[k - |a|];
  }

  /** Python's `ch.lower()` on ASCII letters. */
  function LowerChar(ch: char): char
  {
    if 'A' <= ch <= 'Z' then (ch - 'A' + 'a') as char else ch
  }

  /** `s.lower()`. */
  function Lower(s: string): (r: string)
    ensures |r| == |s|
    ensures forall k :: 0 <= k < |s| ==> r[k] == LowerChar(s[k])
  {
    seq(|s|, k requires 0 <= k < |s| => LowerChar(s[k]))
  }

  /** `s.startswith(prefix)`. */
  predicate StartsWith(s: string, prefix: string)
  {
    |prefix| <= |s| && s[..|prefix|] == prefix
  }

  /** `sub` occurs in `s` at position `i`. */
  predicate OccursAt(s: string, sub: string, i: int)
  {
    0 <= i <= |s| - |sub| && s[i..i + |sub|] == sub
  }

  /** `sub in s`. */
  predicate Contains(s: string, sub: string)
  {
    exists i :: 0 <= i <= |s| - |sub| && OccursAt(s, sub, i)
  }
}

=== FILE: wrappers.dfy ===
/** The optional value used for "absent" results (a missing state file, say). */
module Wrappers {

  datatype Option<+T> = None | Some(value: T) {

    /** The encapsulated value, or `default` when there is none. */
    function GetOr(default: T): (r: T)
      ensures Some? ==> r == value
      ensures None? ==> r == default
    {
      match this
      case Some(v) => v
      case None => default
    }
  }
}
